=== FILE: README.md ===
# Short-video bot: the pure core in Dafny

The application turns a blog post into a vertical short video. It writes a
narration script and YouTube metadata from the post title. It synthesises
speech with word timings. It then renders each frame: a slowly changing crop
of the post image, with the word being spoken drawn as an outlined subtitle.
This project models the deterministic computations inside that pipeline, all
in `app.py`:

- word-timing construction (`generate_tts_with_timings`): one record per
  word-boundary event, or an even split of the audio duration over the
  narration's whitespace tokens (module `WordTimings`);
- active-word selection in `make_frame`: the last word whose window
  `[start + offset, end + offset + 0.2]` holds `t` (module `Subtitles`);
- the Ken-Burns geometry of `make_frame_generator`: the resized base image
  and the per-frame crop box (module `KenBurns`);
- the subtitle draw plan: 169 black outline stamps over `[-6, 6]^2`, then the
  gold fill (module `Subtitles`), and the whole frame (module
  `FrameGenerator`);
- `generate_smart_script` and `generate_youtube_data`: first-match tip
  selection in table order, template filling, the hashtag, title and tags
  (module `Scripts`);
- title cleaning, `safe_title` and the output file name (module `Titles`).

Python's string primitives that these use (`str.split()`, `str.strip()`,
`str.replace`, `in`, `str.lower`) are defined over `seq<char>` in module
`Text`. `results.dfy` holds the `Option` and `Result` types.

Times, scales and durations are exact `real`s. Python `int()` on a positive
value is `.Floor`. Python's `//` on the non-negative image sizes is Dafny's
`/` on `nat`.

Behaviour of the code that the model keeps, although it may be unexpected:

- The crop window grows with `t`, because it is the target size divided by
  `1 - 0.015 t`, which falls below 1. So the image zooms out; it does not zoom
  in with a shrinking window. Nothing clamps the scale: at `t >= 200/3` it
  reaches zero or goes negative and the frame cannot be rendered (`CropAt`
  returns a failure).
- The grace window is closed on both sides and 0.2 s long. With the records
  Hello [0, 0.5] and there [0.5, 0.9], "there" is still shown at
  `t = 1.05`, and nothing is shown at 1.2.
- The local `default_keyword` in `generate_smart_script` is never used. The
  keyword returned when no rule matches is the second field of the
  `"default"` entry of the tips table.

## Model

| member | source | states |
|---|---|---|
| WordTimings.TimingOf | app.py:175-179 | a boundary event becomes a record with the event's text whose start times 10^7 is the offset and whose end times 10^7 is offset plus duration, both in ticks; a non-negative duration gives `start <= end` |
| WordTimings.BoundaryTimings | app.py:173-179 | the streaming loop yields exactly one record per boundary event, in arrival order; audio and other chunks yield none |
| WordTimings.BoundaryTimingsRoundTrip | app.py:176-177 | converting each record back to 100 ns ticks recovers exactly the event it came from |
| WordTimings.EvenTimings | app.py:188-192 | record `i` of the fallback loop holds word `i` and spans `[i * step, (i + 1) * step]` past the start |
| WordTimings.FallbackTimings | app.py:181-193 | a failed duration probe leaves the list empty; otherwise there is one record per whitespace token, with that token's text, and the `N` records are contiguous, each `D / N` long, the first starting at 0 and the last ending at `D` |
| WordTimings.EvenEnds | app.py:188-192 | a layout from 0 starts at 0 and its last record ends at `n * step` |
| WordTimings.EvenSteps | app.py:188-192 | records laid out from 0 are contiguous, each one step long, and the last ends at `n * step` |
| WordTimings.EvenSplit | app.py:186-192 | the fallback records run contiguously from 0 to the duration `D`, each `D / N` long |
| WordTimings.GenerateTimings | app.py:169-193 | boundary events, when there are any, decide the records; otherwise the fallback does |
| WordTimings.HelloThereTimings | app.py:173-179 | events (0, 5000000, "Hello") and (5000000, 4000000, "there") give Hello [0, 0.5] and there [0.5, 0.9] |
| WordTimings.FallbackTimesEachWord | app.py:181-192 | without events, narration of space-joined words is timed word by word, each word getting an equal share |
| Text.Split | app.py:186 | `str.split()` yields non-empty tokens without whitespace, and yields none exactly when the text is all whitespace |
| Text.SplitSkipGap | app.py:186 | leading whitespace of any kind and length does not change the split |
| Text.SplitWordThen | app.py:186 | a token followed by the end or by whitespace is split off whole |
| Text.SplitSpaced | app.py:186 | words laid out between arbitrary whitespace runs (possibly empty at the ends, non-empty between words) split back into exactly those words |
| Text.SplitJoin | app.py:186 | splitting space-joined tokens gives the tokens back |
| Text.Strip | app.py:263 | `str.strip()` leaves a slice of the input with whitespace only outside it and none at either end |
| Text.StripTrimmed | app.py:263 | a string with no whitespace at either end strips to itself |
| Text.IsSubstring | app.py:136 | Python's `key in title` can hold only when the key is no longer than the title |
| Text.IsSubstringMeansOccurs | app.py:136 | Python's `key in title` holds exactly when the key occurs at some position |
| Text.MissingFirstChar | app.py:136 | a key whose first character is absent from the title is not in it |
| Text.Replace | app.py:153 | `str.replace` with a replacement as long as the pattern keeps the length |
| Text.ReplaceChar | app.py:153 | replacing one character by another maps the string position by position |
| Text.ReplaceCharMembers | app.py:263 | after replacing a character, only the replacement and other characters of the input remain |
| Text.ReplaceAbsent | app.py:263 | `str.replace` leaves a string without the pattern's first character unchanged |
| Text.ReplaceCopies | app.py:154 | a prefix free of the pattern's first character is copied unchanged |
| Text.ReplaceAfter | app.py:154 | the first occurrence after such a prefix is replaced and replacing resumes after it |
| Text.FillOnce | app.py:141 | a single occurrence of the pattern is replaced in place and nothing else changes |
| Text.ReplaceSeparator | app.py:154 | replacing spaces in space-joined words puts the replacement between the words |
| Text.Lower | app.py:111 | `lower()` keeps the length, maps each ASCII capital to the letter 32 code points above it, keeps every other character, and leaves no ASCII capital |
| Subtitles.Scan | app.py:222-226 | the scan keeps its initial value when no window holds `t`, and ends with the last word whose window holds `t` |
| Subtitles.ActiveWord | app.py:222-226 | the active word is `""` when no window holds `t`, and otherwise the text of the last word whose window holds `t` |
| Subtitles.LastShowing | app.py:222-226 | reference search from the back: none exactly when no window holds `t`, else the last showing index |
| Subtitles.ActiveWordIsLastShowing | app.py:222-226 | the active word is the text of the last word whose window holds `t`, and `""` when none does |
| Subtitles.LaterWordWins | app.py:226 | when two windows hold `t`, the shown text comes from the later word or one after it |
| Subtitles.HelloThereActiveWords | app.py:222-226 | Hello [0, 0.5], there [0.5, 0.9]: "Hello" at 0.3, "there" at 0.6 and 1.05, nothing at 1.2 |
| Subtitles.FallbackLeavesNoGap | app.py:186-192 | under the even split some word is on screen at every `t` from the offset until `D + 0.2` past it |
| Subtitles.EvenLayoutShows | app.py:188-192 | an even layout covers every `t` from its start to its end plus the grace period |
| Subtitles.CenteredX | app.py:232 | the text's left edge leaves equal margins on both sides of the 1080-pixel frame |
| Subtitles.StrokePlan | app.py:232-238 | 170 draw calls: stamp `k` is black at offset `(k / 13 - 6, k % 13 - 6)` from `(x, 1450)`; the last call is the `#FFD700` fill at `(x, 1450)` |
| Subtitles.StrokeRoundTrip | app.py:235-236 | each offset in `[-6, 6]^2` has its loop position among the 169, and that position maps back to it |
| Subtitles.StampsCoverSquare | app.py:235-237 | the 169 loop positions and the offsets of `[-6, 6]^2` are in one-to-one correspondence |
| KenBurns.BaseSizeIsZoomedTarget | app.py:205-206 | the base size 1296x2304 is the 1080x1920 target times 1.2, truncated |
| KenBurns.Scale | app.py:213 | the scale is 1 at `t = 0`, at most 1 exactly for `t >= 0`, and positive exactly for `t < 200/3` |
| KenBurns.ResizedBase | app.py:205-208 | a zero source dimension fails; otherwise the base covers 1296x2304, exactly in the dimension whose ratio is the larger, and the other side is the whole part of the source side times that ratio: `floor(1296 h / w)` high or `floor(2304 w / h)` wide |
| KenBurns.CropAt | app.py:213-217 | for `t < 200/3` the box is `int(1080 / scale)` wide and `int(1920 / scale)` high (the largest whole sizes whose product with the scale stays within the target), at least 1080x1920 and exactly that at `t = 0`, with non-negative corner, centred unless clamped at 0; from `t = 200/3` on it fails |
| KenBurns.ScaledFloor | app.py:207-208 | `int(n * (num / den))` on exact reals is the whole part of `num * n / den`, and `num` itself when `n` is `den` |
| KenBurns.RatioOrder | app.py:207 | comparing `1296 / w` with `2304 / h` is comparing `1296 h` with `2304 w` |
| KenBurns.CropGrows | app.py:213-214 | the crop width and height never decrease as `t` grows |
| KenBurns.CropInsideEarly | app.py:214-218 | during the first 10 s the box lies inside any base image `ResizedBase` produces |
| KenBurns.CropOverrunsLate | app.py:214-218 | for a 1296x2304 base at `t = 12` the left edge clamps at 0 and the right edge is 1317, past the image |
| FrameGenerator.Setup | app.py:205-209 | setup fails exactly on a zero source dimension; otherwise the base it holds is `ResizedBase(src)`, the source resized by the larger of `1296 / w` and `2304 / h`, at least 1296x2304, and it keeps the timings and offset |
| FrameGenerator.DisplayText | app.py:60-66 | the shaped text when shaping succeeds, and the raw word when it raises |
| FrameGenerator.RenderFrame | app.py:212-238 | a frame renders exactly when `t < 200/3`; it uses `CropAt`'s box and draws nothing when no word is active, otherwise the 170-call plan for the displayed word |
| FrameGenerator.ClipDuration | app.py:349 | the clip runs exactly one second longer than the narration |
| FrameGenerator.ClipRendersIff | app.py:349 | every frame of a clip of length `D + 1` renders exactly when `D + 1 <= 200/3` |
| Scripts.Format | app.py:141 | the filled template is the head, then the value in the field's place, then the tail |
| Scripts.FormatIsReplace | app.py:141 | filling the `{tip}` field equals replacing the field's text in the template |
| Scripts.BaseScriptBraceFree | app.py:114-124 | neither `base_script` template holds a brace outside its `{tip}` field |
| Scripts.FirstMatch | app.py:135-139 | the index of the first rule, in table order, whose key is in the text; none exactly when no key is |
| Scripts.Choose | app.py:132-139 | the first matching rule is chosen; the default entry is chosen when no key matches |
| Scripts.Script | app.py:132-142 | the script is the template head, the chosen tip and the template tail; the keyword is the chosen entry's |
| Scripts.SmartScript | app.py:110-142 | the script is the language's template with `{tip}` replaced by the tip chosen for the lower-cased title, and the keyword is that tip's |
| Scripts.SecondRuleWins | app.py:135-139 | when the first key cannot occur and the second does, the second entry wins wherever later keys occur |
| Scripts.InsertionOrderDecides | app.py:125-139 | an English title with "portrait" and no letter l gets the portrait keyword even when "anime" comes first |
| Scripts.Hashtag | app.py:153 | the hashtag is `#` followed by the keyword with every space turned into `_` |
| Scripts.HashtagRoundTrip | app.py:153 | a hashtag has no space, and a keyword without underscores is recovered from it |
| Scripts.Metadata | app.py:145-166 | the title opens with the title head and the post title and ends with the keyword; the description opens with its head and the post title and ends with the hashtag; the tags start with the fixed tags plus keyword and end with the title's words comma-separated |
| Scripts.YouTubeMetadata | app.py:145-166 | under the chosen language's wording the title opens with its head and the post title and ends with the keyword; the description opens with its head and the post title and ends with the keyword's hashtag; the tags open with their head and the keyword and end with the title's words comma-separated |
| Scripts.TagsListTitleWords | app.py:154 | for a title of space-separated words the tags end with those words, comma-separated |
| Titles.CleanTitle | app.py:263 | the clean title is the feed title with each vertical bar and hyphen turned into a space, position by position, then stripped (only stripped when it has neither); so it has no bar or hyphen and no whitespace at either end |
| Titles.CleanTitleIdempotent | app.py:263 | cleaning a clean title changes nothing |
| Titles.Filter | app.py:358 | a character is kept exactly when it is in the input and is alphanumeric, a space, `-` or `_`; a single character is kept or dropped by that test; an input of kept characters is returned unchanged |
| Titles.FilterConcat | app.py:358 | filtering a concatenation is the concatenation of the filtered parts, so order and repetitions are kept |
| Titles.SafeTitle | app.py:358 | the safe title is the first `min(20, n)` characters of the stripped filtered title: at most 20, no leading whitespace, only kept characters |
| Titles.SafeTitleCanEndInSpace | app.py:358 | slicing after stripping lets the safe title end with a space |
| Titles.FinalFilename | app.py:359 | the file name is `Video_`, then the safe title, then `.mp4` |
| Titles.SafeTitleHasNoSeparator | app.py:358 | when `isalnum` rejects the slash and the backslash, the safe title contains neither |
| Titles.FilenameStaysInDirectory | app.py:358-359 | a safe title without separators gives a file name of at most 30 characters without separators |

## Left out

- The Streamlit interface, the feed download, image extraction and music download: presentation and network I/O.
- The speech engine: its stream of chunks is an input (`seq<Chunk>`), and the probed audio duration is an `Option<real>` that is `None` when the probe raises.
- Writing and reading the timing JSON file: library I/O. The records the generator reads are taken to be the ones written.
- Pixel work: image decoding, LANCZOS and BICUBIC resampling, the padding PIL adds when a crop box runs past the image, and font loading.
- Text measurement: `textbbox`, or `textsize` on older PIL, is the parameter `measure`.
- Arabic shaping and bidi reordering in `process_text_display`: the parameter `shape`, with `None` standing for a raised exception and giving the raw word.
- moviepy: audio loading, looping, mixing and encoding. Only the clip length `duration + 1.0` is modelled.
- IEEE-754 arithmetic: the model uses exact reals, so rounding drift in `curr += time_per_word` and an `int()` landing one below an exact value are not modelled.
- Text.Lower: maps only the ASCII letters; Python's full Unicode case mapping is not modelled. Every key of the tips tables is ASCII.
- Titles.Filter: Python's Unicode `isalnum` is the parameter `isAlnum`.
- Text.Split and Text.Strip: whitespace is CPython's `str.isspace` set, given as a fixed list of code points.
- Text.Replace: requires a non-empty pattern; every pattern the application uses is non-empty.
- Scripts.Script: `str.format` is modelled for templates with one `{tip}` field and no other brace, which is what both templates are (`Scripts.BaseScriptBraceFree`); `Scripts.FormatIsReplace` ties this to plain replacement.
- KenBurns.CropAt: requires `t >= 0`, because the frame clock never runs backwards. From `t = 200/3` on, the model returns one failure where Python divides by zero or crops a box of negative size.
- KenBurns.ResizedBase: a zero source dimension is one failure where Python raises `ZeroDivisionError`.

=== FILE: frames.dfy ===
/** The frame generator (`make_frame_generator` and its `make_frame`): the
    one-time setup that sizes the base image, and the per-frame function that
    crops it and lays out the subtitle for the active word. */
module FrameGenerator {
  import opened Results
  import opened WordTimings
  import opened KenBurns
  import opened Subtitles

  /** What the generator captures once: the resized base image, the word
      timings and the manual sync offset. */
  datatype Renderer = Renderer(base: Size, timings: seq<WordTiming>, syncOffset: real)

  /** One frame: the window cropped from the base image (then resized to
      1080x1920) and the text draw calls made on it, in order. */
  datatype Frame = Frame(crop: CropBox, overlay: seq<DrawCall>)

  /** The setup part of `make_frame_generator`. */
  function Setup(src: Size, timings: seq<WordTiming>, syncOffset: real): (r: Result<Renderer, RenderError>)
    ensures r.Success? <==> src.width > 0 && src.height > 0
    ensures r.Success? ==> r.value.base.width >= BaseWidth && r.value.base.height >= BaseHeight
    ensures r.Success? ==> ResizedBase(src).Success? && r.value.base == ResizedBase(src).value
    ensures r.Success? ==> r.value.timings == timings && r.value.syncOffset == syncOffset
  {
    match ResizedBase(src)
    case Failure(e) => Failure(e)
    case Success(base) => Success(Renderer(base, timings, syncOffset))
  }

  /** `process_text_display`: the shaped and reordered text, or the raw word
      when shaping fails. */
  function DisplayText(word: string, shaped: Option<string>): (text: string)
    ensures shaped.None? ==> text == word
    ensures shaped.Some? ==> Some(text) == shaped
  {
    match shaped
    case Some(s) => s
    case None => word
  }

  /** `make_frame(t)`. `shape` stands for the Arabic reshaping and bidi
      reordering (`None` when it raises) and `measure` for the pixel width
      the font gives a text. */
  method RenderFrame(r: Renderer, t: real, shape: string -> Option<string>, measure: string -> int)
    returns (f: Result<Frame, RenderError>)
    requires t >= 0.0
    ensures f.Success? <==> t < 200.0 / 3.0
    ensures f.Success? ==> f.value.crop == CropAt(r.base, t).value
    ensures f.Success? ==> (f.value.overlay == [] <==> ActiveWord(r.timings, t, r.syncOffset) == "")
    ensures f.Success? && r.timings == [] ==> f.value.overlay == []
    ensures f.Success? && f.value.overlay != [] ==>
      var word := ActiveWord(r.timings, t, r.syncOffset);
      var text := DisplayText(word, shape(word));
      && |f.value.overlay| == 170
      && (forall k :: 0 <= k < 169 ==>
            f.value.overlay[k] == Stamp(CenteredX(measure(text)), text, StrokeOffset(k)))
      && f.value.overlay[169] == DrawText(CenteredX(measure(text)), TextY, text, FillColor)
  {
    var crop := CropAt(r.base, t);
    if crop.Failure? {
      return Failure(crop.error);
    }
    var word := ActiveWord(r.timings, t, r.syncOffset);
    var overlay := [];
    if word != "" {
      var text := DisplayText(word, shape(word));
      overlay := StrokePlan(text, measure(text));
    }
    f := Success(Frame(crop.value, overlay));
  }

  /** `dur = audio.duration + 1.0`: the clip runs one second past the
      narration. */
  function ClipDuration(narration: real): (d: real)
    ensures d - narration == 1.0
    ensures narration >= 0.0 ==> d >= 1.0
  {
    narration + 1.0
  }

  /** Every frame of the clip renders exactly when the clip ends by the time
      the scale reaches zero: a narration longer than 197/3 s makes the
      frames from t = 200/3 on fail. */
  lemma ClipRendersIff(r: Renderer, narration: real)
    requires narration >= 0.0
    ensures (forall t :: 0.0 <= t < ClipDuration(narration) ==> CropAt(r.base, t).Success?)
            <==> ClipDuration(narration) <= 200.0 / 3.0
  {
    if ClipDuration(narration) > 200.0 / 3.0 {
      assert !CropAt(r.base, 200.0 / 3.0).Success?;
    }
  }
}

=== FILE: kenburns.dfy ===
/** Ken-Burns geometry of `make_frame_generator`: the source image is scaled
    once so that it covers 1.2 times the 1080x1920 target, then every frame
    crops a window centred on that base image whose size is the target size
    divided by `1 - 0.015 t`. Since the divisor falls below 1, the window
    grows with `t`: the image zooms out. */
module KenBurns {
  import opened Results

  const TargetWidth: int := 1080
  const TargetHeight: int := 1920
  const ZoomFactor: real := 1.2
  const ZoomRate: real := 0.015

  /** `base_w, base_h`: the target size times the zoom factor, truncated. */
  const BaseWidth: int := 1296
  const BaseHeight: int := 2304

  /** The base size is `int(target_w * zoom_factor)` by
      `int(target_h * zoom_factor)`. */
  lemma BaseSizeIsZoomedTarget()
    ensures BaseWidth == (TargetWidth as real * ZoomFactor).Floor
    ensures BaseHeight == (TargetHeight as real * ZoomFactor).Floor
  {
  }

  datatype Size = Size(width: nat, height: nat)

  /** A crop box as the image library takes it: right and bottom exclusive. */
  datatype CropBox = CropBox(left: int, top: int, right: int, bottom: int)
  {
    function Width(): int { right - left }
    function Height(): int { bottom - top }
  }

  datatype RenderError =
    | ZeroImageDimension   // `base_w / width` divides by zero
    | ScaleNotPositive     // `target_w / scale` divides by zero, or the box turns inside out

  /** `ratio = max(base_w / width, base_h / height)` and the resized size
      `int(width * ratio)` by `int(height * ratio)`. */
  function ResizedBase(src: Size): (r: Result<Size, RenderError>)
    ensures r.Failure? <==> src.width == 0 || src.height == 0
    ensures r.Success? ==> r.value.width >= BaseWidth && r.value.height >= BaseHeight
    ensures r.Success? ==> r.value.width == BaseWidth || r.value.height == BaseHeight
    ensures r.Success? && BaseWidth * src.height >= BaseHeight * src.width ==>
              r.value.width == BaseWidth
    ensures r.Success? && BaseHeight * src.width >= BaseWidth * src.height ==>
              r.value.height == BaseHeight
    ensures r.Success? && BaseWidth * src.height >= BaseHeight * src.width ==>
              IsFloorOf(r.value.height, BaseWidth * src.height, src.width)
    ensures r.Success? && BaseHeight * src.width >= BaseWidth * src.height ==>
              IsFloorOf(r.value.width, BaseHeight * src.width, src.height)
  {
    if src.width == 0 || src.height == 0 then Failure(ZeroImageDimension)
    else
      var rw := BaseWidth as real / src.width as real;
      var rh := BaseHeight as real / src.height as real;
      RatioOrder(src);
      if rw >= rh then
        // ratio = rw
        var width := ScaledFloor(src.width, BaseWidth, src.width);
        var height := ScaledFloor(src.height, BaseWidth, src.width);
        CoveredByFloor(height, BaseWidth * src.height, BaseHeight, src.width);
        if BaseHeight * src.width >= BaseWidth * src.height then
          ExactFloor(height, BaseHeight, src.width);
          Success(Size(width, height))
        else
          Success(Size(width, height))
      else
        // ratio = rh
        var width := ScaledFloor(src.width, BaseHeight, src.height);
        var height := ScaledFloor(src.height, BaseHeight, src.height);
        CoveredByFloor(width, BaseHeight * src.width, BaseWidth, src.height);
        Success(Size(width, height))
  }

  /** `int(n * (num / den))`, computed on exact reals. It is the whole part of
      `num * n / den`, and exactly `num` when `n` is `den`. */
  function ScaledFloor(n: nat, num: nat, den: nat): (k: int)
    requires den > 0
    ensures IsFloorOf(k, num * n, den)
    ensures n == den ==> k == num
  {
    FloorScaled(n, num, den);
    (n as real * (num as real / den as real)).Floor
  }

  /** `k` is the whole part of `num / den` for a positive `den`: the largest
      whole number of `den`s that fits in `num`. */
  predicate IsFloorOf(k: int, num: int, den: int) {
    k * den <= num < (k + 1) * den
  }

  /** Comparing the two real ratios is comparing the cross products. */
  lemma RatioOrder(src: Size)
    requires src.width > 0 && src.height > 0
    ensures BaseWidth as real / src.width as real >= BaseHeight as real / src.height as real
            <==> BaseWidth * src.height >= BaseHeight * src.width
  {
    CrossMultiply(BaseWidth as real, src.width as real, BaseHeight as real, src.height as real);
    RealProductAsInt(BaseWidth, src.height);
    RealProductAsInt(BaseHeight, src.width);
  }

  /** `a / x >= b / y` exactly when `a * y >= b * x`, for positive `x`, `y`. */
  lemma CrossMultiply(a: real, x: real, b: real, y: real)
    requires x > 0.0 && y > 0.0
    ensures a / x >= b / y <==> a * y >= b * x
  {
    var c := x * y;
    DivTimes(a, x, y);
    DivTimes(b, y, x);
    if a / x >= b / y {
      MulMonotone(b / y, a / x, c);
    } else {
      MulStrict(a / x, b / y, c);
    }
  }

  lemma DivTimes(a: real, x: real, y: real)
    requires x > 0.0
    ensures (a / x) * (x * y) == a * y
  {
    assert (a / x) * x == a;
  }

  /** `int(m * (n / d))` is the whole part of `n * m / d`. */
  lemma FloorScaled(m: nat, n: nat, d: nat)
    requires d > 0
    ensures IsFloorOf((m as real * (n as real / d as real)).Floor, n * m, d)
    ensures m == d ==> (m as real * (n as real / d as real)).Floor == n
  {
    var x := (n * m) as real;
    var q := m as real * (n as real / d as real);
    assert q == x / d as real;
    FloorDiv(x, d as real);
    var k := q.Floor;
    RealProductAsInt(k, d);
    RealProductAsInt(k + 1, d);
    if m == d {
      assert q == n as real;
    }
  }

  lemma RealProductAsInt(a: int, b: int)
    ensures (a * b) as real == a as real * b as real
  {
  }

  /** A whole part of at least `b * den` in `num` is at least `b`. */
  lemma CoveredByFloor(k: int, num: int, b: int, den: int)
    requires den > 0 && IsFloorOf(k, num, den)
    ensures num >= b * den ==> k >= b
  {
    if num >= b * den && k < b {
      IntMulMonotone(k + 1, b, den);
    }
  }

  /** The whole part of `b * den / den` is `b`. */
  lemma ExactFloor(k: int, b: int, den: int)
    requires den > 0 && IsFloorOf(k, b * den, den)
    ensures k == b
  {
    if k < b {
      IntMulMonotone(k + 1, b, den);
    } else if k > b {
      IntMulMonotone(b + 1, k, den);
    }
  }

  lemma IntMulMonotone(a: int, b: int, c: int)
    requires a <= b && c > 0
    ensures a * c <= b * c
  {
  }

  /** `scale = 1.0 - 0.015 * t`. */
  function Scale(t: real): (s: real)
    ensures t == 0.0 ==> s == 1.0
    ensures s <= 1.0 <==> t >= 0.0
    ensures s > 0.0 <==> t < 200.0 / 3.0
  {
    1.0 - ZoomRate * t
  }

  /** The window `make_frame` crops at time `t`: `int(target / scale)` wide
      and high, centred on the base image with its top-left corner clamped
      at 0. Its right and bottom edges are not clamped. */
  function CropAt(base: Size, t: real): (r: Result<CropBox, RenderError>)
    requires t >= 0.0
    ensures r.Success? <==> t < 200.0 / 3.0
    ensures r.Success? ==> r.value.left >= 0 && r.value.top >= 0
    ensures r.Success? ==> r.value.Width() >= TargetWidth && r.value.Height() >= TargetHeight
    ensures r.Success? ==> r.value.Width() as real * Scale(t) <= TargetWidth as real
                                < (r.value.Width() + 1) as real * Scale(t)
    ensures r.Success? ==> r.value.Height() as real * Scale(t) <= TargetHeight as real
                                < (r.value.Height() + 1) as real * Scale(t)
    ensures r.Success? && t == 0.0 ==>
              r.value.Width() == TargetWidth && r.value.Height() == TargetHeight
    ensures r.Success? && base.width / 2 >= r.value.Width() / 2 ==>
              r.value.left == base.width / 2 - r.value.Width() / 2
    ensures r.Success? && base.width / 2 < r.value.Width() / 2 ==> r.value.left == 0
    ensures r.Success? && base.height / 2 >= r.value.Height() / 2 ==>
              r.value.top == base.height / 2 - r.value.Height() / 2
    ensures r.Success? && base.height / 2 < r.value.Height() / 2 ==> r.value.top == 0
  {
    var scale := Scale(t);
    if scale <= 0.0 then Failure(ScaleNotPositive)
    else
      var cw := (TargetWidth as real / scale).Floor;
      var ch := (TargetHeight as real / scale).Floor;
      DivideByScale(TargetWidth as real, scale);
      DivideByScale(TargetHeight as real, scale);
      FloorDiv(TargetWidth as real, scale);
      FloorDiv(TargetHeight as real, scale);
      var cx := base.width / 2;
      var cy := base.height / 2;
      var left := if cx - cw / 2 > 0 then cx - cw / 2 else 0;
      var top := if cy - ch / 2 > 0 then cy - ch / 2 else 0;
      Success(CropBox(left, top, left + cw, top + ch))
  }

  /** `int(x / scale)` for a positive scale: the largest whole number of
      scales that fits in `x`. */
  lemma FloorDiv(x: real, scale: real)
    requires scale > 0.0
    ensures (x / scale).Floor as real * scale <= x < ((x / scale).Floor + 1) as real * scale
  {
    var q := x / scale;
    var f := q.Floor as real;
    assert q * scale == x;
    var g := (x / scale).Floor + 1;
    MulMonotone(f, q, scale);
    MulStrict(q, f + 1.0, scale);
    assert g as real == f + 1.0;
    assert g as real * scale == (f + 1.0) * scale;
    assert q * scale < (f + 1.0) * scale;
    assert x < g as real * scale;
  }

  lemma MulMonotone(a: real, b: real, c: real)
    requires a <= b && c > 0.0
    ensures a * c <= b * c
  {
  }

  lemma MulStrict(a: real, b: real, c: real)
    requires a < b && c > 0.0
    ensures a * c < b * c
  {
  }

  /** Dividing by a scale in (0, 1] does not shrink a positive size. */
  lemma DivideByScale(x: real, scale: real)
    requires x > 0.0 && 0.0 < scale <= 1.0
    ensures x / scale >= x
    ensures scale == 1.0 ==> x / scale == x
  {
    assert (x / scale) * scale == x;
  }

  /** The window never shrinks: a later frame's crop is at least as wide and
      as high as an earlier frame's. */
  lemma CropGrows(base: Size, t1: real, t2: real)
    requires 0.0 <= t1 <= t2 < 200.0 / 3.0
    ensures CropAt(base, t1).Success? && CropAt(base, t2).Success?
    ensures CropAt(base, t1).value.Width() <= CropAt(base, t2).value.Width()
    ensures CropAt(base, t1).value.Height() <= CropAt(base, t2).value.Height()
  {
    var s1 := Scale(t1);
    var s2 := Scale(t2);
    DivisionAntitone(TargetWidth as real, s2, s1);
    DivisionAntitone(TargetHeight as real, s2, s1);
  }

  lemma DivisionAntitone(x: real, a: real, b: real)
    requires x > 0.0 && 0.0 < a <= b
    ensures x / b <= x / a
  {
    assert (x / a) * a == x;
    assert (x / b) * b == x;
  }

  /** A window no larger than the base image, centred on it, lies entirely
      inside it. */
  lemma CenteredFits(baseSide: nat, side: nat)
    requires side <= baseSide
    ensures baseSide / 2 >= side / 2
    ensures baseSide / 2 - side / 2 + side <= baseSide
  {
  }

  /** For the first ten seconds the window stays inside any base image that
      `ResizedBase` produces, so no frame shows padding. */
  lemma CropInsideEarly(base: Size, t: real)
    requires base.width >= BaseWidth && base.height >= BaseHeight
    requires 0.0 <= t <= 10.0
    ensures CropAt(base, t).Success?
    ensures CropAt(base, t).value.right <= base.width
    ensures CropAt(base, t).value.bottom <= base.height
  {
    var scale := Scale(t);
    assert scale >= 0.85;
    DivisionAntitone(TargetWidth as real, 0.85, scale);
    DivisionAntitone(TargetHeight as real, 0.85, scale);
    var box := CropAt(base, t).value;
    assert box.Width() <= 1270;
    assert box.Height() <= 2258;
    CenteredFits(base.width, box.Width());
    CenteredFits(base.height, box.Height());
  }

  /** Past about 11.1 s the window outgrows the base image in its tight
      dimension: for a 1296x2304 base at t = 12 the box is 1317 wide and its
      right edge lies beyond the image. */
  lemma CropOverrunsLate()
    ensures CropAt(Size(1296, 2304), 12.0).Success?
    ensures CropAt(Size(1296, 2304), 12.0).value.left == 0
    ensures CropAt(Size(1296, 2304), 12.0).value.right == 1317
  {
    assert Scale(12.0) == 0.82;
    assert 1317.0 <= 1080.0 / 0.82 < 1318.0;
  }
}

=== FILE: results.dfy ===
/** Failure-carrying values for the places where the application either
    degrades to a fallback or aborts with an exception. */
module Results {

  datatype Option<T> = None | Some(value: T)

  datatype Result<T, E> = Success(value: T) | Failure(error: E)
}

=== FILE: script.dfy ===
/** Narration script and YouTube metadata (`generate_smart_script`,
    `generate_youtube_data`): a tip chosen by the first keyword rule that
    matches the lower-cased title, substituted into a fixed template, and
    metadata built by plain string substitution. */
module Scripts {
  import opened Results
  import opened Text

  /** One entry of the tips table: the title keyword it reacts to, the tip
      spliced into the script and the topic keyword returned with it. */
  datatype Tip = Tip(key: string, tip: string, keyword: string)

  /** The two branches of the generators: `lang == "Arabic"`, and any other
      value of `lang`. */
  datatype Lang = Arabic | English

  function LangOf(lang: string): Lang {
    if lang == "Arabic" then Arabic else English
  }

  /** The tips table without its "default" entry, in insertion order. The
      Arabic table has a "face" entry, with the portrait tip, that the
      English one lacks. */
  function Tips(lang: Lang): seq<Tip> {
    match lang
    case Arabic => ArabicTips
    case English => EnglishTips
  }

  const ArabicTips: seq<Tip> :=
    [ Tip("lighting", "السر كله في الإضاءة. استخدم كلمة Volumetric Lighting",
          "الإضاءة السينمائية"),
      Tip("portrait", "عشان تطلع تفاصيل البشرة دي، جرب تستخدم 8k resolution و ultra realistic",
          "تصوير البورتريه"),
      Tip("face", "عشان تطلع تفاصيل البشرة دي، جرب تستخدم 8k resolution و ultra realistic",
          "تصوير البورتريه"),
      Tip("anime", "عايز ستايل ياباني أصلي؟ استخدم Niji Style في البرومبت",
          "الأنمي") ]

  const EnglishTips: seq<Tip> :=
    [ Tip("lighting", "The secret is in the lighting. Use 'Volumetric Lighting'",
          "Cinematic Lighting"),
      Tip("portrait", "To get these skin details, try using '8k resolution' and 'ultra realistic'",
          "Portrait Photography"),
      Tip("anime", "Want an authentic Japanese style? Use 'Niji Style' parameter",
          "Anime Style") ]

  /** The "default" entry, used when no keyword matches. */
  function DefaultTip(lang: Lang): Tip {
    match lang
    case Arabic =>
      Tip("default", "عايز تطلع جودة زي دي؟ السر في التفاصيل. استخدم كلمات وصف دقيقة للإضاءة والخامات",
          "الذكاء الاصطناعي")
    case English =>
      Tip("default", "Want high quality like this? The secret is in the details. Use precise words for lighting and textures",
          "AI Generation")
  }

  /** A format string with one replacement field `{tip}` and no other brace:
      `head + "{tip}" + tail`. */
  datatype Template = Template(head: string, tail: string)

  const Placeholder: string := "{tip}"

  /** `template.format(tip=value)`: the value takes the field's place
      between the fixed head and tail. */
  function Format(t: Template, value: string): (r: string)
    ensures |r| == |t.head| + |value| + |t.tail|
    ensures r[..|t.head|] == t.head
    ensures r[|t.head|..|t.head| + |value|] == value
    ensures r[|t.head| + |value|..] == t.tail
  {
    t.head + value + t.tail
  }

  /** For a template without stray braces, `str.format` and replacing the
      field's text give the same string. */
  lemma FormatIsReplace(t: Template, value: string)
    requires '{' !in t.head && '{' !in t.tail
    ensures Format(t, value) == Replace(t.head + Placeholder + t.tail, Placeholder, value)
  {
    FillOnce(t.head, Placeholder, value, t.tail);
  }

  /** The `base_script` templates: `head + "{tip}" + tail` is the template
      of the language. */
  function BaseScript(lang: Lang): Template {
    match lang
    case Arabic => Template(ArabicHead, ArabicTail)
    case English => Template(EnglishHead, EnglishTail)
  }

  const ArabicHead: string :=
      "عايز تطلع صو"
      + "رة زي دي؟ "

  const ArabicTail: string :=
      " في البرومبت"
      + " بتاعك. النت"
      + "يجة مبهرة! ج"
      + "ربها وقولي ر"
      + "أيك، الكود ف"
      + "ي البايو."

  const EnglishHead: string :=
      "Want to crea"
      + "te an image "
      + "like this? "

  const EnglishTail: string :=
      " in your pro"
      + "mpt. The res"
      + "ult is stunn"
      + "ing! Check t"
      + "he link in b"
      + "io for the c"
      + "ode."

  /** Both templates hold no brace outside their one field. */
  lemma BaseScriptBraceFree(lang: Lang)
    ensures '{' !in BaseScript(lang).head && '{' !in BaseScript(lang).tail
  {
    match lang
    case Arabic => ArabicHeadBraceFree(); ArabicTailBraceFree();
    case English => EnglishHeadBraceFree(); EnglishTailBraceFree();
  }

  lemma ArabicHeadBraceFree()
    ensures '{' !in ArabicHead
  {
    assert '{' !in "عايز تطلع صو";
    assert '{' !in "رة زي دي؟ ";
  }

  lemma ArabicTailBraceFree()
    ensures '{' !in ArabicTail
  {
    assert '{' !in " في البرومبت";
    assert '{' !in " بتاعك. النت";
    assert '{' !in "يجة مبهرة! ج";
    assert '{' !in "ربها وقولي ر";
    assert '{' !in "أيك، الكود ف";
    assert '{' !in "ي البايو.";
  }

  lemma EnglishHeadBraceFree()
    ensures '{' !in EnglishHead
  {
    assert '{' !in "Want to crea";
    assert '{' !in "te an image ";
    assert '{' !in "like this? ";
  }

  lemma EnglishTailBraceFree()
    ensures '{' !in EnglishTail
  {
    assert '{' !in " in your pro";
    assert '{' !in "mpt. The res";
    assert '{' !in "ult is stunn";
    assert '{' !in "ing! Check t";
    assert '{' !in "he link in b";
    assert '{' !in "io for the c";
    assert '{' !in "ode.";
  }

  /** The first rule, in order, whose key occurs in `s`. */
  function FirstMatch(rules: seq<Tip>, s: string): (k: Option<nat>)
    ensures k.None? <==> forall i :: 0 <= i < |rules| ==> !IsSubstring(rules[i].key, s)
    ensures k.Some? ==> k.value < |rules| && IsFirstMatch(rules, s, k.value)
  {
    if |rules| == 0 then None
    else if IsSubstring(rules[0].key, s) then Some(0)
    else
      match FirstMatch(rules[1..], s)
      case None => None
      case Some(k) => Some(k + 1)
  }

  /** Rule `i`'s key occurs in `s` and no earlier rule's key does. */
  predicate IsFirstMatch(rules: seq<Tip>, s: string, i: nat)
    requires i < |rules|
  {
    IsSubstring(rules[i].key, s) && forall j :: 0 <= j < i ==> !IsSubstring(rules[j].key, s)
  }

  /** First match wins, with an explicit default: the rule whose key occurs
      in `s` with no earlier rule's key occurring, or `dflt` when no key
      occurs. */
  function Choose(rules: seq<Tip>, dflt: Tip, s: string): (r: Tip)
    ensures (forall i :: 0 <= i < |rules| ==> !IsSubstring(rules[i].key, s)) ==> r == dflt
    ensures forall i :: 0 <= i < |rules| && IsFirstMatch(rules, s, i) ==> r == rules[i]
  {
    match FirstMatch(rules, s)
    case None => dflt
    case Some(k) => rules[k]
  }

  /** The tip chosen for a title: matched against the lower-cased title. */
  function SelectTip(title: string, lang: Lang): Tip {
    Choose(Tips(lang), DefaultTip(lang), Lower(title))
  }

  /** The script and topic keyword for a title under a given template and
      tips table: the chosen tip fills the template's field. */
  function Script(base: Template, rules: seq<Tip>, dflt: Tip, title: string): (r: (string, string))
    ensures var chosen := Choose(rules, dflt, Lower(title));
            && |r.0| == |base.head| + |chosen.tip| + |base.tail|
            && r.0[..|base.head|] == base.head
            && r.0[|base.head|..|base.head| + |chosen.tip|] == chosen.tip
            && r.0[|base.head| + |chosen.tip|..] == base.tail
            && r.1 == chosen.keyword
  {
    var chosen := Choose(rules, dflt, Lower(title));
    (Format(base, chosen.tip), chosen.keyword)
  }

  /** `generate_smart_script(title, lang)`: the language's template with
      the `{tip}` field replaced by the tip chosen for the lower-cased title,
      and that tip's topic keyword. */
  function SmartScript(title: string, lang: string): (r: (string, string))
    ensures var base := BaseScript(LangOf(lang));
            r.0 == Replace(base.head + Placeholder + base.tail, Placeholder, SelectTip(title, LangOf(lang)).tip)
    ensures r.1 == SelectTip(title, LangOf(lang)).keyword
  {
    var l := LangOf(lang);
    BaseScriptBraceFree(l);
    FormatIsReplace(BaseScript(l), SelectTip(title, l).tip);
    Script(BaseScript(l), Tips(l), DefaultTip(l), title)
  }

  /** The keys of the English table, in insertion order. */
  lemma EnglishKeys()
    ensures |EnglishTips| == 3
    ensures EnglishTips[0].key == "lighting"
    ensures EnglishTips[1].key == "portrait"
    ensures EnglishTips[1].keyword == "Portrait Photography"
  {
  }

  /** When the first rule's key cannot occur in `s` (its first character is
      missing) and the second rule's key does occur, the second rule is
      chosen, wherever the other keys occur. */
  lemma SecondRuleWins(rules: seq<Tip>, dflt: Tip, s: string, at: int)
    requires |rules| >= 2
    requires |rules[0].key| > 0 && rules[0].key[0] !in s
    requires OccursAt(rules[1].key, s, at)
    ensures Choose(rules, dflt, s) == rules[1]
  {
    MissingFirstChar(rules[0].key, s);
    IsSubstringMeansOccurs(rules[1].key, s);
    assert IsFirstMatch(rules, s, 1);
  }

  /** The rules are tried in insertion order, not in the order the keywords
      appear in the title: an English title such as "Anime Portrait", with
      no letter l and "portrait" somewhere in it, gets the portrait tip even
      when "anime" comes first. */
  lemma InsertionOrderDecides(title: string, at: int)
    requires 'l' !in Lower(title)
    requires OccursAt("portrait", Lower(title), at)
    ensures SelectTip(title, English).keyword == "Portrait Photography"
  {
    EnglishKeys();
    SecondRuleWins(EnglishTips, DefaultTip(English), Lower(title), at);
  }

  /** `#` followed by the keyword with every space turned into `_`. */
  function Hashtag(keyword: string): (h: string)
    ensures |h| == |keyword| + 1 && h[0] == '#'
    ensures forall i :: 0 <= i < |keyword| ==>
      h[i + 1] == (if keyword[i] == ' ' then '_' else keyword[i])
  {
    ReplaceChar(keyword, ' ', '_');
    "#" + Replace(keyword, " ", "_")
  }

  /** A hashtag holds no space, and for a keyword without underscores the
      keyword is recovered by turning the underscores back into spaces. */
  lemma HashtagRoundTrip(keyword: string)
    ensures ' ' !in Hashtag(keyword)
    ensures '_' !in keyword ==> Replace(Hashtag(keyword)[1..], "_", " ") == keyword
  {
    var h := Hashtag(keyword);
    var tail := h[1..];
    assert |tail| == |keyword|;
    forall i | 0 <= i < |h|
      ensures h[i] != ' '
    {
      if i > 0 {
        assert h[i] == (if keyword[i - 1] == ' ' then '_' else keyword[i - 1]);
      }
    }
    if '_' !in keyword {
      ReplaceChar(tail, '_', ' ');
      var back := Replace(tail, "_", " ");
      forall i | 0 <= i < |keyword|
        ensures back[i] == keyword[i]
      {
        assert tail[i] == h[i + 1];
        assert keyword[i] != '_';
      }
      assert back == keyword;
    }
  }

  /** The fixed text of the metadata around the substituted values. */
  datatype MetadataText = MetadataText(
    titleHead: string, titleMiddle: string,
    descriptionHead: string, descriptionMiddle: string,
    tagsHead: string, tagsMiddle: string)

  function Wording(lang: Lang): MetadataText {
    match lang
    case Arabic => ArabicWording
    case English => EnglishWording
  }

  const ArabicWording: MetadataText :=
    MetadataText("كيف تصمم ", " بالذكاء الاصطناعي 🤖✨ | ",
                 "هل تبحث عن أفضل برومبت لعمل ", "؟\nفي هذا الفيديو القصير نستعرض نتيجة مذهلة باستخدام الذكاء الاصطناعي.\n\n📌 البرومبت كامل موجود في الرابط في البايو.\n\n#AIArt #Midjourney #PromptsLab ",
                 "AI Art, Midjourney, ", ", تصميم صور, ذكاء اصطناعي, ")

  const EnglishWording: MetadataText :=
    MetadataText("How to Create ", " with AI 🤖✨ | ",
                 "Looking for the best prompt to create ", "?\nIn this short video, we showcase amazing AI results.\n\n📌 Full Prompt Link in Bio.\n\nDon't forget to subscribe for daily prompts!\n#AIArt #Midjourney #PromptsLab ",
                 "AI Art, Midjourney, ", ", image generation, AI tutorial, ")

  /** The YouTube metadata of a video. */
  datatype YouTubeData = YouTubeData(title: string, description: string, tags: string)

  /** The metadata under a given wording: the title and the keyword spliced
      into the title, the title and the keyword's hashtag into the
      description, and the keyword and the title's words, comma-separated,
      into the tags. */
  function Metadata(w: MetadataText, title: string, keyword: string): (r: YouTubeData)
    ensures && |r.title| == |w.titleHead| + |title| + |w.titleMiddle| + |keyword|
            && r.title[..|w.titleHead|] == w.titleHead
            && r.title[|w.titleHead|..|w.titleHead| + |title|] == title
            && r.title[|r.title| - |keyword|..] == keyword
    ensures && |r.description| == |w.descriptionHead| + |title| + |w.descriptionMiddle| + |keyword| + 1
            && r.description[..|w.descriptionHead|] == w.descriptionHead
            && r.description[|w.descriptionHead|..|w.descriptionHead| + |title|] == title
            && r.description[|r.description| - |keyword| - 1..] == Hashtag(keyword)
    ensures && |r.tags| >= |w.tagsHead| + |keyword| + |w.tagsMiddle|
            && r.tags[..|w.tagsHead| + |keyword|] == w.tagsHead + keyword
            && r.tags[|w.tagsHead| + |keyword| + |w.tagsMiddle|..] == Replace(title, " ", ", ")
    ensures |r.title| >= |title| + |keyword| && r.title[|r.title| - |keyword|..] == keyword
    ensures |r.description| > |title| + |keyword| && r.description[|r.description| - |keyword| - 1..] == Hashtag(keyword)
    ensures var words := Replace(title, " ", ", ");
            |r.tags| >= |keyword| + |words| && r.tags[|r.tags| - |words|..] == words
  {
    YouTubeData(
      w.titleHead + title + w.titleMiddle + keyword,
      w.descriptionHead + title + w.descriptionMiddle + Hashtag(keyword),
      w.tagsHead + keyword + w.tagsMiddle + Replace(title, " ", ", "))
  }

  /** `generate_youtube_data(title, keyword, lang)`: under the wording of the
      chosen language, the title opens with the wording's title head and the
      video title, and ends with the keyword; the description opens with its
      head and the video title, and ends with the keyword's hashtag; the tags
      open with their head and the keyword, and end with the title's words,
      comma-separated. */
  function YouTubeMetadata(title: string, keyword: string, lang: string): (r: YouTubeData)
    ensures var w := Wording(LangOf(lang));
            && |r.title| >= |w.titleHead| + |title|
            && r.title[..|w.titleHead|] == w.titleHead
            && r.title[|w.titleHead|..|w.titleHead| + |title|] == title
    ensures var w := Wording(LangOf(lang));
            && |r.description| >= |w.descriptionHead| + |title|
            && r.description[..|w.descriptionHead|] == w.descriptionHead
            && r.description[|w.descriptionHead|..|w.descriptionHead| + |title|] == title
    ensures var w := Wording(LangOf(lang));
            && |r.tags| >= |w.tagsHead| + |keyword|
            && r.tags[..|w.tagsHead| + |keyword|] == w.tagsHead + keyword
    ensures |r.title| >= |title| + |keyword| && r.title[|r.title| - |keyword|..] == keyword
    ensures |r.description| > |title| + |keyword| && r.description[|r.description| - |keyword| - 1..] == Hashtag(keyword)
    ensures var words := Replace(title, " ", ", ");
            |r.tags| >= |keyword| + |words| && r.tags[|r.tags| - |words|..] == words
  {
    Metadata(Wording(LangOf(lang)), title, keyword)
  }

  /** The last field of the tags turns a title made of space-separated words
      into the comma-separated list of those words. */
  lemma TagsListTitleWords(w: MetadataText, words: seq<string>, keyword: string)
    requires forall k :: 0 <= k < |words| ==> ' ' !in words[k]
    ensures Metadata(w, Join(words, " "), keyword).tags
         == w.tagsHead + keyword + w.tagsMiddle + Join(words, ", ")
  {
    ReplaceSeparator(words, ", ");
  }
}

=== FILE: subtitles.dfy ===
/** The subtitle overlay of `make_frame`: which word is shown at time `t`,
    and the draw calls that render it with a brute-force outline. */
module Subtitles {
  import opened Results
  import opened WordTimings

  /** Seconds a word stays on screen after its measured end. */
  const Grace: real := 0.2

  /** Word `w` is on screen at `t` under sync offset `offset`: `t` lies in the
      closed window `[start + offset, end + offset + 0.2]`. */
  predicate Shows(w: WordTiming, t: real, offset: real) {
    w.start + offset <= t <= w.end + offset + Grace
  }

  /** Word `i` is on screen at `t` and no later word is. */
  predicate IsLastShowing(ws: seq<WordTiming>, t: real, offset: real, i: nat)
    requires i < |ws|
  {
    Shows(ws[i], t, offset) && forall j :: i < j < |ws| ==> !Shows(ws[j], t, offset)
  }

  /** The scan over all words: every word whose window holds `t` overwrites
      the word found so far, which starts as `shown`. */
  function Scan(ws: seq<WordTiming>, t: real, offset: real, shown: string): (r: string)
    ensures (forall i :: 0 <= i < |ws| ==> !Shows(ws[i], t, offset)) ==> r == shown
    ensures forall i :: 0 <= i < |ws| && IsLastShowing(ws, t, offset, i) ==> r == ws[i].text
    decreases |ws|
  {
    if |ws| == 0 then shown
    else
      var next := if Shows(ws[0], t, offset) then ws[0].text else shown;
      var r := Scan(ws[1..], t, offset, next);
      assert forall i :: 0 < i < |ws| ==> ws[i] == ws[1..][i - 1];
      r
  }

  /** The active word at `t`: `""` when no window holds `t`. */
  function ActiveWord(ws: seq<WordTiming>, t: real, offset: real): (r: string)
    ensures (forall i :: 0 <= i < |ws| ==> !Shows(ws[i], t, offset)) ==> r == ""
    ensures forall i :: 0 <= i < |ws| && IsLastShowing(ws, t, offset, i) ==> r == ws[i].text
  {
    Scan(ws, t, offset, "")
  }

  /** Reference definition searching from the back: the index of the last
      word whose window holds `t`. */
  function LastShowing(ws: seq<WordTiming>, t: real, offset: real): (k: Option<nat>)
    ensures k.None? <==> forall i :: 0 <= i < |ws| ==> !Shows(ws[i], t, offset)
    ensures k.Some? ==> k.value < |ws| && IsLastShowing(ws, t, offset, k.value)
    decreases |ws|
  {
    if |ws| == 0 then None
    else if Shows(ws[|ws| - 1], t, offset) then Some(|ws| - 1)
    else
      var k := LastShowing(ws[..|ws| - 1], t, offset);
      assert forall i :: 0 <= i < |ws| - 1 ==> ws[i] == ws[..|ws| - 1][i];
      k
  }

  /** Last match wins: the active word is the text of the last word whose
      window holds `t`, and `""` when there is none. */
  lemma ActiveWordIsLastShowing(ws: seq<WordTiming>, t: real, offset: real)
    ensures ActiveWord(ws, t, offset) ==
      match LastShowing(ws, t, offset)
      case None => ""
      case Some(k) => ws[k].text
  {
  }

  /** When two words' windows both hold `t`, the earlier one is never the
      one that decides what is shown: the shown text comes from the later
      word or one after it. */
  lemma LaterWordWins(ws: seq<WordTiming>, t: real, offset: real, i: nat, j: nat)
    requires i < j < |ws|
    requires Shows(ws[i], t, offset) && Shows(ws[j], t, offset)
    ensures exists k :: j <= k < |ws| && Shows(ws[k], t, offset) &&
                        ActiveWord(ws, t, offset) == ws[k].text
  {
    var k := LastShowing(ws, t, offset).value;
    assert j <= k;
  }

  /** The worked example: "Hello" on [0, 0.5] and "there" on [0.5, 0.9] with
      no offset. At 0.6 both windows hold and the later word wins; at 1.05
      "there" is still inside its grace period. */
  lemma HelloThereActiveWords()
    ensures var ws := [WordTiming(0.0, 0.5, "Hello"), WordTiming(0.5, 0.9, "there")];
            && ActiveWord(ws, 0.3, 0.0) == "Hello"
            && ActiveWord(ws, 0.6, 0.0) == "there"
            && ActiveWord(ws, 1.05, 0.0) == "there"
            && ActiveWord(ws, 1.2, 0.0) == ""
  {
    var ws := [WordTiming(0.0, 0.5, "Hello"), WordTiming(0.5, 0.9, "there")];
    assert ws[1..] == [ws[1]];
  }

  /** Under the even fallback split of a duration `d` and any sync offset,
      some word is on screen at every `t` from the offset to the offset plus
      `d` plus the grace period: the subtitle never goes blank while the
      narration runs. */
  lemma FallbackLeavesNoGap(words: seq<string>, d: real, offset: real, t: real)
    requires |words| > 0 && d > 0.0
    requires offset <= t <= offset + d + Grace
    ensures LastShowing(EvenTimings(words, 0.0, d / |words| as real), t, offset).Some?
  {
    var step := d / |words| as real;
    StepsAddUp(|words|, d);
    EvenLayoutShows(words, 0.0, step, offset, t);
  }

  /** Some record of an even layout from `curr` shows at every `t` from
      `curr + offset` to the end of the layout plus the grace period. */
  lemma {:induction false} EvenLayoutShows(words: seq<string>, curr: real, step: real, offset: real, t: real)
    requires |words| > 0 && step > 0.0
    requires curr + offset <= t <= curr + (|words| as real) * step + offset + Grace
    ensures exists i :: 0 <= i < |words| && Shows(EvenTimings(words, curr, step)[i], t, offset)
  {
    var ws := EvenTimings(words, curr, step);
    if t <= curr + step + offset + Grace {
      assert Shows(ws[0], t, offset);
    } else {
      var n := |words| - 1;
      assert (n as real) * step + step == (|words| as real) * step;
      EvenLayoutShows(words[1..], curr + step, step, offset, t);
      var i :| 0 <= i < n && Shows(EvenTimings(words[1..], curr + step, step)[i], t, offset);
      assert ws[i + 1] == EvenTimings(words[1..], curr + step, step)[i];
    }
  }

  /** Outline half-width in pixels, the vertical text position and the frame
      width the text is centred in. */
  const StrokeWidth: int := 6
  const TextY: int := 1450
  const FrameWidth: int := 1080
  const StrokeColor: string := "black"
  const FillColor: string := "#FFD700"

  /** One `draw.text` call. */
  datatype DrawCall = DrawText(x: real, y: int, text: string, fill: string)

  /** `x_pos = (target_w - w_width) / 2`: the left edge that centres text of
      the given width. */
  function CenteredX(width: int): (x: real)
    ensures x + width as real + x == FrameWidth as real
  {
    (FrameWidth - width) as real / 2.0
  }

  /** The stamp at position `k` of the outline loops: `dx` counts up in the
      outer loop, `dy` in the inner one, both over `[-6, 6]`. */
  function StrokeOffset(k: int): (int, int) {
    (k / 13 - StrokeWidth, k % 13 - StrokeWidth)
  }

  /** The loop position at which offset `(dx, dy)` is stamped. */
  function StrokePosition(dx: int, dy: int): int {
    (dx + StrokeWidth) * 13 + (dy + StrokeWidth)
  }

  predicate InStrokeSquare(dx: int, dy: int) {
    -StrokeWidth <= dx <= StrokeWidth && -StrokeWidth <= dy <= StrokeWidth
  }

  /** The outline stamp drawn at offset `(dx, dy)`. */
  function Stamp(x: real, text: string, offset: (int, int)): DrawCall {
    DrawText(x + offset.0 as real, TextY + offset.1, text, StrokeColor)
  }

  /** The draw calls for `text` measured `width` pixels wide: 169 black
      stamps, one per loop position, then the gold fill at the unshifted
      position. */
  method StrokePlan(text: string, width: int) returns (calls: seq<DrawCall>)
    ensures |calls| == 170
    ensures forall k :: 0 <= k < 169 ==> calls[k] == Stamp(CenteredX(width), text, StrokeOffset(k))
    ensures calls[169] == DrawText(CenteredX(width), TextY, text, FillColor)
  {
    var x := CenteredX(width);
    calls := [];
    var dx := -StrokeWidth;
    while dx <= StrokeWidth
      invariant -StrokeWidth <= dx <= StrokeWidth + 1
      invariant |calls| == (dx + StrokeWidth) * 13
      invariant forall k :: 0 <= k < |calls| ==> calls[k] == Stamp(x, text, StrokeOffset(k))
    {
      var dy := -StrokeWidth;
      while dy <= StrokeWidth
        invariant -StrokeWidth <= dy <= StrokeWidth + 1
        invariant |calls| == StrokePosition(dx, dy)
        invariant forall k :: 0 <= k < |calls| ==> calls[k] == Stamp(x, text, StrokeOffset(k))
      {
        StrokeRoundTrip(dx, dy);
        calls := calls + [Stamp(x, text, (dx, dy))];
        dy := dy + 1;
      }
      dx := dx + 1;
    }
    calls := calls + [DrawText(x, TextY, text, FillColor)];
  }

  lemma StrokeRoundTrip(dx: int, dy: int)
    requires InStrokeSquare(dx, dy)
    ensures 0 <= StrokePosition(dx, dy) < 169
    ensures StrokeOffset(StrokePosition(dx, dy)) == (dx, dy)
  {
  }

  /** The 169 loop positions and the offsets of the square `[-6, 6]^2` are
      in one-to-one correspondence: every offset is stamped exactly once. */
  lemma StampsCoverSquare()
    ensures forall dx, dy :: InStrokeSquare(dx, dy) ==>
      0 <= StrokePosition(dx, dy) < 169 && StrokeOffset(StrokePosition(dx, dy)) == (dx, dy)
    ensures forall k :: 0 <= k < 169 ==>
      InStrokeSquare(StrokeOffset(k).0, StrokeOffset(k).1) &&
      StrokePosition(StrokeOffset(k).0, StrokeOffset(k).1) == k
  {
    forall dx, dy | InStrokeSquare(dx, dy)
      ensures 0 <= StrokePosition(dx, dy) < 169 && StrokeOffset(StrokePosition(dx, dy)) == (dx, dy)
    {
      StrokeRoundTrip(dx, dy);
    }
  }
}

=== FILE: text.dfy ===
/** Python string primitives used by the application: whitespace splitting
    (`str.split()`), stripping (`str.strip()`), `str.replace`, substring search
    (`in`) and lower-casing, as functions over `seq<char>`. */
module Text {

  /** The code points CPython's `str.isspace` accepts; `str.split()` and
      `str.strip()` with no argument use exactly this set. */
  predicate IsSpace(c: char) {
    || ('\t' <= c <= '\r')
    || ('\U{1C}' <= c <= ' ')
    || c == '\U{85}' || c == '\U{A0}' || c == '\U{1680}'
    || ('\U{2000}' <= c <= '\U{200A}')
    || c == '\U{2028}' || c == '\U{2029}' || c == '\U{202F}'
    || c == '\U{205F}' || c == '\U{3000}'
  }

  /** A token produced by `str.split()`: non-empty, with no whitespace in it. */
  predicate IsWord(w: string) {
    |w| > 0 && forall i :: 0 <= i < |w| ==> !IsSpace(w[i])
  }

  /** The end of the run of non-whitespace characters that starts at `i`. */
  function TokenEnd(s: string, i: nat): (j: nat)
    requires i <= |s|
    ensures i <= j <= |s|
    ensures forall k :: i <= k < j ==> !IsSpace(s[k])
    ensures j == |s| || IsSpace(s[j])
    decreases |s| - i
  {
    if i == |s| || IsSpace(s[i]) then i else TokenEnd(s, i + 1)
  }

  /** `s.split()`: the maximal runs of non-whitespace characters, in order. */
  function Split(s: string): (words: seq<string>)
    ensures forall k :: 0 <= k < |words| ==> IsWord(words[k])
    ensures (forall i :: 0 <= i < |s| ==> IsSpace(s[i])) <==> words == []
    decreases |s|
  {
    if |s| == 0 then []
    else if IsSpace(s[0]) then
      var rest := Split(s[1..]);
      assert forall i :: 1 <= i < |s| ==> s[i] == s[1..][i - 1];
      rest
    else
      var j := TokenEnd(s, 0);
      [s[..j]] + Split(s[j..])
  }

  /** `sep.join(words)`. */
  function Join(words: seq<string>, sep: string): string
  {
    if |words| == 0 then ""
    else if |words| == 1 then words[0]
    else words[0] + sep + Join(words[1..], sep)
  }

  lemma {:induction false} SplitWordThenSpace(w: string, rest: string)
    requires IsWord(w)
    ensures Split(w + " " + rest) == [w] + Split(rest)
  {
    var s := w + " " + rest;
    var j := TokenEnd(s, 0);
    assert s[|w|] == ' ';
    assert j == |w|;
    assert s[..j] == w;
    assert s[j..] == " " + rest;
    assert (" " + rest)[1..] == rest;
  }

  /** Splitting a space-joined list of tokens gives the tokens back. */
  lemma {:induction false} SplitJoin(words: seq<string>)
    requires forall k :: 0 <= k < |words| ==> IsWord(words[k])
    ensures Split(Join(words, " ")) == words
  {
    if |words| == 0 {
    } else if |words| == 1 {
      var s := words[0];
      var j := TokenEnd(s, 0);
      assert s[..j] == s;
      assert s[j..] == [];
    } else {
      SplitJoin(words[1..]);
      SplitWordThenSpace(words[0], Join(words[1..], " "));
      assert Join(words, " ") == words[0] + " " + Join(words[1..], " ");
      assert [words[0]] + words[1..] == words;
    }
  }

  /** Whitespace only, possibly empty. */
  predicate IsGap(g: string) {
    forall i :: 0 <= i < |g| ==> IsSpace(g[i])
  }

  /** `gaps[0] + words[0] + gaps[1] + ... + words[n-1] + gaps[n]`: words laid
      out between runs of whitespace. */
  function Spaced(words: seq<string>, gaps: seq<string>): string
    requires |gaps| == |words| + 1
  {
    if |words| == 0 then gaps[0] else gaps[0] + words[0] + Spaced(words[1..], gaps[1..])
  }

  /** Leading whitespace does not change the split. */
  lemma {:induction false} SplitSkipGap(g: string, x: string)
    requires IsGap(g)
    ensures Split(g + x) == Split(x)
  {
    if |g| > 0 {
      assert (g + x)[0] == g[0];
      assert (g + x)[1..] == g[1..] + x;
      SplitSkipGap(g[1..], x);
    } else {
      assert g + x == x;
    }
  }

  /** A token followed by the end or by whitespace is split off whole. */
  lemma SplitWordThen(w: string, x: string)
    requires IsWord(w)
    requires x == [] || IsSpace(x[0])
    ensures Split(w + x) == [w] + Split(x)
  {
    var s := w + x;
    var j := TokenEnd(s, 0);
    assert forall k :: 0 <= k < |w| ==> s[k] == w[k];
    assert |w| < |s| ==> s[|w|] == x[0];
    assert j == |w|;
    assert s[..j] == w;
    assert s[j..] == x;
  }

  /** Splitting words laid out between whitespace runs (empty or not at the
      ends, non-empty between two words) gives the words back, whatever the
      whitespace. */
  lemma {:induction false} SplitSpaced(words: seq<string>, gaps: seq<string>)
    requires |gaps| == |words| + 1
    requires forall k :: 0 <= k < |words| ==> IsWord(words[k])
    requires forall k :: 0 <= k < |gaps| ==> IsGap(gaps[k])
    requires forall k :: 0 < k < |words| ==> |gaps[k]| > 0
    ensures Split(Spaced(words, gaps)) == words
  {
    if |words| == 0 {
      SplitSkipGap(gaps[0], []);
      assert gaps[0] + [] == gaps[0];
    } else {
      var rest := Spaced(words[1..], gaps[1..]);
      assert IsGap(gaps[1]);
      if |words| > 1 {
        assert |gaps[1]| > 0;
        assert rest == gaps[1] + words[1] + Spaced(words[2..], gaps[2..]);
        assert rest[0] == gaps[1][0];
      }
      SplitSpaced(words[1..], gaps[1..]);
      SplitWordThen(words[0], rest);
      SplitSkipGap(gaps[0], words[0] + rest);
      assert gaps[0] + words[0] + rest == gaps[0] + (words[0] + rest);
      assert [words[0]] + words[1..] == words;
    }
  }

  /** `s.lstrip()`: `s` without its leading whitespace. */
  function LStrip(s: string): (r: string)
    ensures |r| <= |s| && r == s[|s| - |r|..]
    ensures forall k :: 0 <= k < |s| - |r| ==> IsSpace(s[k])
    ensures r == [] || !IsSpace(r[0])
  {
    if |s| > 0 && IsSpace(s[0]) then LStrip(s[1..]) else s
  }

  /** `s.rstrip()`: `s` without its trailing whitespace. */
  function RStrip(s: string): (r: string)
    ensures |r| <= |s| && r == s[..|r|]
    ensures forall k :: |r| <= k < |s| ==> IsSpace(s[k])
    ensures r == [] || !IsSpace(r[|r| - 1])
  {
    if |s| > 0 && IsSpace(s[|s| - 1]) then RStrip(s[..|s| - 1]) else s
  }

  /** `s.strip()`: the slice of `s` left after removing whitespace at both
      ends. */
  function Strip(s: string): (r: string)
    ensures |r| <= |s|
    ensures exists i :: 0 <= i <= |s| - |r| && StrippedAt(s, r, i)
    ensures r == [] || (!IsSpace(r[0]) && !IsSpace(r[|r| - 1]))
    ensures forall c :: c in r ==> c in s
  {
    var l := LStrip(s);
    var r := RStrip(l);
    StripSlice(s, l, r);
    r
  }

  /** Taking a suffix after leading whitespace and then a prefix before
      trailing whitespace leaves one slice of `s`. */
  lemma StripSlice(s: string, l: string, r: string)
    requires |l| <= |s| && l == s[|s| - |l|..]
    requires forall k :: 0 <= k < |s| - |l| ==> IsSpace(s[k])
    requires |r| <= |l| && r == l[..|r|]
    requires forall k :: |r| <= k < |l| ==> IsSpace(l[k])
    ensures StrippedAt(s, r, |s| - |l|)
    ensures forall c :: c in r ==> c in s
  {
    var i := |s| - |l|;
    assert r == s[i..i + |r|];
    forall k | i + |r| <= k < |s|
      ensures IsSpace(s[k])
    {
      assert s[k] == l[k - i];
    }
    forall c | c in r
      ensures c in s
    {
      var k :| 0 <= k < |r| && r[k] == c;
      assert s[i + k] == c;
    }
  }

  /** A string with no whitespace at either end is its own strip. */
  lemma StripTrimmed(s: string)
    requires s == [] || (!IsSpace(s[0]) && !IsSpace(s[|s| - 1]))
    ensures Strip(s) == s
  {
    var r := Strip(s);
    var i :| 0 <= i <= |s| - |r| && StrippedAt(s, r, i);
    if s != [] {
      assert i == 0;
      assert i + |r| == |s|;
    }
  }

  /** `r` is the slice `s[i..i+|r|]` and everything outside it is whitespace. */
  ghost predicate StrippedAt(s: string, r: string, i: int) {
    && 0 <= i <= i + |r| <= |s|
    && r == s[i..i + |r|]
    && (forall k :: 0 <= k < i ==> IsSpace(s[k]))
    && (forall k :: i + |r| <= k < |s| ==> IsSpace(s[k]))
  }

  /** `pat` occurs in `s` at position `i`. */
  ghost predicate OccursAt(pat: string, s: string, i: int) {
    0 <= i && i + |pat| <= |s| && s[i..i + |pat|] == pat
  }

  /** Python's `pat in s`. */
  predicate IsSubstring(pat: string, s: string)
    ensures IsSubstring(pat, s) ==> |pat| <= |s|
  {
    pat <= s || (|s| > 0 && IsSubstring(pat, s[1..]))
  }

  lemma {:induction false} IsSubstringMeansOccurs(pat: string, s: string)
    ensures IsSubstring(pat, s) <==> exists i :: OccursAt(pat, s, i)
  {
    if pat <= s {
      assert OccursAt(pat, s, 0);
    } else if |s| > 0 {
      IsSubstringMeansOccurs(pat, s[1..]);
      if exists i :: OccursAt(pat, s[1..], i) {
        var i :| OccursAt(pat, s[1..], i);
        assert s[1..][i..i + |pat|] == s[i + 1..i + 1 + |pat|];
        assert OccursAt(pat, s, i + 1);
      }
      if exists i :: OccursAt(pat, s, i) {
        var i :| OccursAt(pat, s, i);
        assert i != 0;
        assert s[1..][i - 1..i - 1 + |pat|] == s[i..i + |pat|];
        assert OccursAt(pat, s[1..], i - 1);
      }
    }
  }

  /** A pattern whose first character does not occur in `s` is not in `s`. */
  lemma {:induction false} MissingFirstChar(pat: string, s: string)
    requires |pat| > 0 && pat[0] !in s
    ensures !IsSubstring(pat, s)
  {
    if |s| > 0 {
      assert s[0] != pat[0];
      MissingFirstChar(pat, s[1..]);
    }
  }

  /** `s.replace(pat, rep)`: every non-overlapping occurrence of `pat`, taken
      left to right, replaced by `rep`. */
  function Replace(s: string, pat: string, rep: string): (r: string)
    requires |pat| > 0
    ensures |rep| == |pat| ==> |r| == |s|
    decreases |s|
  {
    if |s| == 0 then ""
    else if pat <= s then rep + Replace(s[|pat|..], pat, rep)
    else [s[0]] + Replace(s[1..], pat, rep)
  }

  /** A string in which the pattern's first character never occurs is left
      as it is. */
  lemma {:induction false} ReplaceAbsent(s: string, pat: string, rep: string)
    requires |pat| > 0 && pat[0] !in s
    ensures Replace(s, pat, rep) == s
  {
    if |s| > 0 {
      assert s == [s[0]] + s[1..];
      ReplaceMiss(s[0], s[1..], pat, rep);
      ReplaceAbsent(s[1..], pat, rep);
    }
  }

  /** Replacing one character by another works character by character. */
  lemma {:induction false} ReplaceChar(s: string, a: char, b: char)
    ensures |Replace(s, [a], [b])| == |s|
    ensures forall k :: 0 <= k < |s| ==>
      Replace(s, [a], [b])[k] == (if s[k] == a then b else s[k])
  {
    if |s| > 0 {
      ReplaceChar(s[1..], a, b);
      if [a] <= s {
        assert s[1..] == s[|[a]|..];
      }
    }
  }

  /** Replacing one character by another leaves only characters of `s`
      other than the one replaced, and the replacement. */
  lemma ReplaceCharMembers(s: string, a: char, b: char)
    requires a != b
    ensures forall c :: c in Replace(s, [a], [b]) ==> c == b || (c in s && c != a)
  {
    var r := Replace(s, [a], [b]);
    ReplaceChar(s, a, b);
    forall c | c in r
      ensures c == b || (c in s && c != a)
    {
      var k :| 0 <= k < |r| && r[k] == c;
      assert r[k] == (if s[k] == a then b else s[k]);
    }
  }

  /** A prefix free of the pattern's first character is copied unchanged,
      the pattern right after it is replaced, and replacing continues after
      that occurrence. */
  lemma ReplaceAfter(a: string, pat: string, rep: string, b: string)
    requires |pat| > 0 && pat[0] !in a
    ensures Replace(a + pat + b, pat, rep) == a + rep + Replace(b, pat, rep)
  {
    assert a + pat + b == a + (pat + b);
    ReplaceCopies(a, pat + b, pat, rep);
    ReplaceHit(pat, rep, b);
  }

  /** A prefix free of the pattern's first character is copied as it is. */
  lemma {:induction false} ReplaceCopies(a: string, x: string, pat: string, rep: string)
    requires |pat| > 0 && pat[0] !in a
    ensures Replace(a + x, pat, rep) == a + Replace(x, pat, rep)
  {
    if |a| == 0 {
      assert a + x == x;
    } else {
      assert (a + x)[0] == a[0];
      assert (a + x)[1..] == a[1..] + x;
      assert pat[0] !in a[1..] by {
        assert a == [a[0]] + a[1..];
      }
      ReplaceCopies(a[1..], x, pat, rep);
      assert a + Replace(x, pat, rep) == [a[0]] + (a[1..] + Replace(x, pat, rep));
    }
  }

  /** An occurrence at the front is replaced and replacing resumes after it. */
  lemma ReplaceHit(pat: string, rep: string, b: string)
    requires |pat| > 0
    ensures Replace(pat + b, pat, rep) == rep + Replace(b, pat, rep)
  {
    assert pat <= pat + b;
    assert (pat + b)[|pat|..] == b;
  }

  /** A first character that cannot start the pattern is copied. */
  lemma ReplaceMiss(c: char, t: string, pat: string, rep: string)
    requires |pat| > 0 && c != pat[0]
    ensures Replace([c] + t, pat, rep) == [c] + Replace(t, pat, rep)
  {
    assert ([c] + t)[0] == c;
    assert ([c] + t)[1..] == t;
  }

  /** Filling a template with one placeholder and no other occurrence of the
      placeholder's first character puts `rep` exactly where the placeholder
      was. */
  lemma FillOnce(a: string, pat: string, rep: string, b: string)
    requires |pat| > 0 && pat[0] !in a && pat[0] !in b
    ensures Replace(a + pat + b, pat, rep) == a + rep + b
  {
    ReplaceAfter(a, pat, rep, b);
    ReplaceAbsent(b, pat, rep);
  }

  /** Replacing in a space-joined word list whose words hold no space puts
      the replacement between the words. */
  lemma {:induction false} ReplaceSeparator(words: seq<string>, rep: string)
    requires forall k :: 0 <= k < |words| ==> ' ' !in words[k]
    ensures Replace(Join(words, " "), " ", rep) == Join(words, rep)
  {
    if |words| == 1 {
      ReplaceAbsent(words[0], " ", rep);
    } else if |words| > 1 {
      ReplaceAfter(words[0], " ", rep, Join(words[1..], " "));
      ReplaceSeparator(words[1..], rep);
    }
  }

  /** `c.lower()` for the ASCII letters; every other character is returned
      unchanged. */
  function LowerChar(c: char): char {
    if 'A' <= c <= 'Z' then (c as int + 32) as char else c
  }

  /** `s.lower()`, character by character. */
  function Lower(s: string): (r: string)
    ensures |r| == |s|
    ensures forall i :: 0 <= i < |s| ==> !('A' <= r[i] <= 'Z')
    ensures forall i :: 0 <= i < |s| && !('A' <= s[i] <= 'Z') ==> r[i] == s[i]
    ensures forall i :: 0 <= i < |s| && 'A' <= s[i] <= 'Z' ==> r[i] == (s[i] as int + 32) as char
  {
    seq(|s|, i requires 0 <= i < |s| => LowerChar(s[i]))
  }
}

=== FILE: timings.dfy ===
/** Word-timing construction (`generate_tts_with_timings`): the speech
    engine's word-boundary events become `(start, end, text)` records; when
    the engine reports none, the measured audio duration is split evenly over
    the whitespace tokens of the narration. */
module WordTimings {
  import opened Results
  import opened Text

  /** One spoken word, in seconds on the narration's clock. */
  datatype WordTiming = WordTiming(start: real, end: real, text: string)

  /** A word-boundary event: offset and duration in 100-nanosecond ticks. */
  datatype BoundaryEvent = BoundaryEvent(offset: int, duration: int, text: string)

  /** One item of the speech engine's stream. Audio bytes go to the audio
      file; items of any other type are ignored. */
  datatype Chunk = Audio | WordBoundary(event: BoundaryEvent) | OtherChunk

  const TicksPerSecond: real := 10000000.0

  function Seconds(ticks: int): real {
    ticks as real / TicksPerSecond
  }

  /** The record one boundary event becomes. */
  function TimingOf(e: BoundaryEvent): (w: WordTiming)
    ensures w.text == e.text
    ensures w.start * TicksPerSecond == e.offset as real
    ensures w.end * TicksPerSecond == (e.offset + e.duration) as real
    ensures w.end - w.start == Seconds(e.duration)
    ensures e.offset >= 0 ==> w.start >= 0.0
    ensures e.duration >= 0 ==> w.start <= w.end
  {
    WordTiming(Seconds(e.offset), Seconds(e.offset + e.duration), e.text)
  }

  /** The event a record came from: seconds back to whole ticks. */
  function EventOf(w: WordTiming): BoundaryEvent {
    BoundaryEvent((w.start * TicksPerSecond).Floor,
                  ((w.end - w.start) * TicksPerSecond).Floor, w.text)
  }

  /** The boundary events of a stream, in arrival order. */
  function Boundaries(chunks: seq<Chunk>): seq<BoundaryEvent>
  {
    if |chunks| == 0 then []
    else if chunks[0].WordBoundary? then [chunks[0].event] + Boundaries(chunks[1..])
    else Boundaries(chunks[1..])
  }

  /** The streaming loop: one record appended per boundary event, in the
      order the events arrive. */
  function BoundaryTimings(chunks: seq<Chunk>): (ws: seq<WordTiming>)
    ensures |ws| == |Boundaries(chunks)|
    ensures forall i :: 0 <= i < |ws| ==> ws[i] == TimingOf(Boundaries(chunks)[i])
  {
    if |chunks| == 0 then []
    else
      var rest := BoundaryTimings(chunks[1..]);
      match chunks[0]
      case WordBoundary(e) => [TimingOf(e)] + rest
      case _ => rest
  }

  /** Converting the records back to ticks recovers exactly the events that
      produced them. */
  lemma {:induction false} BoundaryTimingsRoundTrip(chunks: seq<Chunk>)
    ensures |BoundaryTimings(chunks)| == |Boundaries(chunks)|
    ensures forall i :: 0 <= i < |Boundaries(chunks)| ==>
      EventOf(BoundaryTimings(chunks)[i]) == Boundaries(chunks)[i]
  {
    var ws := BoundaryTimings(chunks);
    var es := Boundaries(chunks);
    forall i | 0 <= i < |es|
      ensures EventOf(ws[i]) == es[i]
    {
      var e := es[i];
      assert ws[i] == TimingOf(e);
      assert ws[i].start * TicksPerSecond == e.offset as real;
      assert (ws[i].end - ws[i].start) * TicksPerSecond == e.duration as real;
    }
  }

  /** The fallback loop: each word gets `step` seconds, starting at `curr`,
      and `curr` advances by `step`. */
  function EvenTimings(words: seq<string>, curr: real, step: real): (ws: seq<WordTiming>)
    ensures |ws| == |words|
    ensures forall i :: 0 <= i < |ws| ==>
      ws[i] == WordTiming(curr + (i as real) * step, curr + (i as real + 1.0) * step, words[i])
    decreases |words|
  {
    if |words| == 0 then []
    else [WordTiming(curr, curr + step, words[0])] + EvenTimings(words[1..], curr + step, step)
  }

  /** The fallback path. `duration` is the probed length of the audio file,
      or `None` when the probe fails, in which case the list stays empty.
      Otherwise the `n` tokens get contiguous records of `d / n` seconds
      each, the first starting at 0 and the last ending exactly at `d`: token
      `i` runs from `i * d / n` to `(i + 1) * d / n`. */
  function FallbackTimings(text: string, duration: Option<real>): (ws: seq<WordTiming>)
    ensures duration.None? ==> ws == []
    ensures duration.Some? ==> |ws| == |Split(text)|
    ensures duration.Some? ==> forall i :: 0 <= i < |ws| ==> ws[i].text == Split(text)[i]
    ensures duration.Some? && |ws| > 0 ==>
      && ws[0].start == 0.0
      && ws[|ws| - 1].end == duration.value
      && (forall i :: 0 <= i < |ws| ==> ws[i].end - ws[i].start == duration.value / |ws| as real)
      && (forall i :: 0 <= i < |ws| - 1 ==> ws[i].end == ws[i + 1].start)
  {
    match duration
    case None => []
    case Some(d) =>
      var words := Split(text);
      if |words| > 0 then
        EvenSplit(words, d);
        EvenTimings(words, 0.0, d / |words| as real)
      else []
  }

  /** `n` equal steps of `d / n` add up to `d`. */
  lemma StepsAddUp(n: nat, d: real)
    requires n > 0
    ensures (n as real) * (d / n as real) == d
  {
  }

  /** Records laid out `step` apart from 0 are contiguous, each `step` long,
      and the last one ends at `n * step`. */
  lemma EvenSteps(words: seq<string>, step: real)
    requires |words| > 0
    ensures var ws := EvenTimings(words, 0.0, step);
            && ws[0].start == 0.0
            && ws[|ws| - 1].end == (|ws| as real) * step
            && (forall i :: 0 <= i < |ws| ==> ws[i].end - ws[i].start == step)
            && (forall i :: 0 <= i < |ws| - 1 ==> ws[i].end == ws[i + 1].start)
  {
    EvenLengths(words, step);
    EvenContiguous(words, step);
    EvenEnds(words, step);
  }

  lemma EvenEnds(words: seq<string>, step: real)
    requires |words| > 0
    ensures var ws := EvenTimings(words, 0.0, step);
            ws[0].start == 0.0 && ws[|ws| - 1].end == (|ws| as real) * step
  {
    var ws := EvenTimings(words, 0.0, step);
    var n := |words|;
    assert ws[0].start == 0.0 + (0 as real) * step;
    assert ws[n - 1].end == 0.0 + ((n - 1) as real + 1.0) * step;
    assert (n - 1) as real + 1.0 == n as real;
  }

  lemma EvenLengths(words: seq<string>, step: real)
    ensures var ws := EvenTimings(words, 0.0, step);
            forall i :: 0 <= i < |ws| ==> ws[i].end - ws[i].start == step
  {
    var ws := EvenTimings(words, 0.0, step);
    forall i | 0 <= i < |ws|
      ensures ws[i].end - ws[i].start == step
    {
      NextMultiple(i, step);
    }
  }

  lemma EvenContiguous(words: seq<string>, step: real)
    ensures var ws := EvenTimings(words, 0.0, step);
            forall i :: 0 <= i < |ws| - 1 ==> ws[i].end == ws[i + 1].start
  {
    var ws := EvenTimings(words, 0.0, step);
    forall i | 0 <= i < |ws| - 1
      ensures ws[i].end == ws[i + 1].start
    {
      NextMultiple(i, step);
    }
  }

  /** The `(i + 1)`-th multiple of `step` is one `step` past the `i`-th. */
  lemma NextMultiple(i: nat, step: real)
    ensures (i as real + 1.0) * step == (i as real) * step + step
    ensures ((i + 1) as real) * step == (i as real + 1.0) * step
  {
  }

  /** Splitting `d` evenly over `words`: contiguous records of `d / n`
      seconds each, from 0 to `d`. */
  lemma EvenSplit(words: seq<string>, d: real)
    requires |words| > 0
    ensures var ws := EvenTimings(words, 0.0, d / |words| as real);
            && ws[0].start == 0.0
            && ws[|ws| - 1].end == d
            && (forall i :: 0 <= i < |ws| ==> ws[i].end - ws[i].start == d / |words| as real)
            && (forall i :: 0 <= i < |ws| - 1 ==> ws[i].end == ws[i + 1].start)
  {
    EvenSteps(words, d / |words| as real);
    StepsAddUp(|words|, d);
  }

  /** `generate_tts_with_timings`, without the audio file and the JSON dump:
      the boundary events when there are any, the even split otherwise. */
  function GenerateTimings(chunks: seq<Chunk>, text: string, duration: Option<real>): (ws: seq<WordTiming>)
    ensures |Boundaries(chunks)| > 0 ==> |ws| == |Boundaries(chunks)|
    ensures |Boundaries(chunks)| > 0 ==> forall i :: 0 <= i < |ws| ==>
      ws[i] == TimingOf(Boundaries(chunks)[i])
    ensures |Boundaries(chunks)| == 0 ==> ws == FallbackTimings(text, duration)
  {
    var fromEvents := BoundaryTimings(chunks);
    if |fromEvents| > 0 then fromEvents else FallbackTimings(text, duration)
  }

  /** Two boundary events around an audio chunk: "Hello" for half a second,
      then "there" for 0.4 seconds, with no gap between them. */
  lemma HelloThereTimings()
    ensures GenerateTimings([WordBoundary(BoundaryEvent(0, 5000000, "Hello")), Audio,
                             WordBoundary(BoundaryEvent(5000000, 4000000, "there"))],
                            "Hello there", None)
         == [WordTiming(0.0, 0.5, "Hello"), WordTiming(0.5, 0.9, "there")]
  {
    var chunks := [WordBoundary(BoundaryEvent(0, 5000000, "Hello")), Audio,
                   WordBoundary(BoundaryEvent(5000000, 4000000, "there"))];
    assert chunks[1..][1..] == [chunks[2]];
  }

  /** Without boundary events, narration made of space-separated words is
      timed word by word: the tokens are exactly those words, each given an
      equal share of the duration. */
  lemma FallbackTimesEachWord(chunks: seq<Chunk>, words: seq<string>, d: real)
    requires Boundaries(chunks) == []
    requires forall k :: 0 <= k < |words| ==> IsWord(words[k])
    requires |words| > 0
    ensures GenerateTimings(chunks, Join(words, " "), Some(d))
         == EvenTimings(words, 0.0, d / |words| as real)
  {
    SplitJoin(words);
  }
}

=== FILE: titles.dfy ===
/** The title handling around a run: the feed title cleaned for display and
    narration, and the short safe form used in the output file name. */
module Titles {
  import opened Text

  /** The title with every `|` and every `-` turned into a space, position
      by position. */
  function SeparatorsAsSpaces(title: string): string {
    seq(|title|, k requires 0 <= k < |title| =>
      if title[k] == '|' || title[k] == '-' then ' ' else title[k])
  }

  /** `title.replace("|", " ").replace("-", " ").strip()`: the title with its
      separators turned into spaces, stripped; a title without separators is
      only stripped. */
  function CleanTitle(title: string): (r: string)
    ensures r == Strip(SeparatorsAsSpaces(title))
    ensures '|' !in title && '-' !in title ==> r == Strip(title)
    ensures |r| <= |title|
    ensures '|' !in r && '-' !in r
    ensures r == [] || (!IsSpace(r[0]) && !IsSpace(r[|r| - 1]))
    ensures forall c :: c in r && c != ' ' ==> c in title
  {
    var noBars := Replace(title, "|", " ");
    var noDashes := Replace(noBars, "-", " ");
    ReplaceCharMembers(title, '|', ' ');
    ReplaceCharMembers(noBars, '-', ' ');
    ReplaceChar(title, '|', ' ');
    ReplaceChar(noBars, '-', ' ');
    assert noDashes == SeparatorsAsSpaces(title);
    assert '|' !in title && '-' !in title ==> SeparatorsAsSpaces(title) == title;
    Strip(noDashes)
  }

  /** Cleaning is idempotent: a cleaned title cleans to itself. */
  lemma CleanTitleIdempotent(title: string)
    ensures CleanTitle(CleanTitle(title)) == CleanTitle(title)
  {
    var r := CleanTitle(title);
    ReplaceAbsent(r, "|", " ");
    ReplaceAbsent(r, "-", " ");
    StripTrimmed(r);
  }

  /** The characters `safe_title` keeps: those `isalnum` accepts, the space,
      the hyphen and the underscore. */
  predicate Keep(c: char, isAlnum: char -> bool) {
    isAlnum(c) || c == ' ' || c == '-' || c == '_'
  }

  /** The list comprehension joined back into a string: the characters of
      `s` that are kept, in order. */
  function Filter(s: string, isAlnum: char -> bool): (r: string)
    ensures |r| <= |s|
    ensures forall c :: c in r <==> c in s && Keep(c, isAlnum)
    ensures (forall k :: 0 <= k < |s| ==> Keep(s[k], isAlnum)) ==> r == s
    ensures |s| == 1 ==> r == (if Keep(s[0], isAlnum) then s else [])
  {
    if |s| == 0 then ""
    else
      var rest := Filter(s[1..], isAlnum);
      assert forall c :: c in s <==> c == s[0] || c in s[1..];
      assert forall k :: 1 <= k < |s| ==> s[k] == s[1..][k - 1];
      if Keep(s[0], isAlnum) then [s[0]] + rest else rest
  }

  /** Filtering works piece by piece: the kept characters of `a + b` are
      those of `a` followed by those of `b`, so order and repetitions are
      preserved. */
  lemma {:induction false} FilterConcat(a: string, b: string, isAlnum: char -> bool)
    ensures Filter(a + b, isAlnum) == Filter(a, isAlnum) + Filter(b, isAlnum)
  {
    if |a| == 0 {
      assert a + b == b;
    } else {
      assert (a + b)[0] == a[0];
      assert (a + b)[1..] == a[1..] + b;
      FilterConcat(a[1..], b, isAlnum);
    }
  }

  const MaxSafeLength: nat := 20

  /** `"".join(...).strip()[:20]`. The slice is taken after stripping, so the
      result can end in a space. */
  function SafeTitle(clean: string, isAlnum: char -> bool): (r: string)
    ensures |r| <= MaxSafeLength
    ensures var full := Strip(Filter(clean, isAlnum));
            |r| == (if |full| < MaxSafeLength then |full| else MaxSafeLength) && r <= full
    ensures r == [] || !IsSpace(r[0])
    ensures forall c :: c in r ==> c in clean && Keep(c, isAlnum)
  {
    var full := Strip(Filter(clean, isAlnum));
    var r := if |full| < MaxSafeLength then full else full[..MaxSafeLength];
    assert forall c :: c in r ==> c in full;
    r
  }

  /** A clean title whose characters are all kept and whose 20th character is
      a space gives a safe title ending in that space. */
  lemma SafeTitleCanEndInSpace(clean: string, isAlnum: char -> bool)
    requires forall k :: 0 <= k < |clean| ==> Keep(clean[k], isAlnum)
    requires |clean| > MaxSafeLength && clean[MaxSafeLength - 1] == ' '
    requires !IsSpace(clean[0]) && !IsSpace(clean[|clean| - 1])
    ensures SafeTitle(clean, isAlnum) == clean[..MaxSafeLength]
    ensures SafeTitle(clean, isAlnum)[MaxSafeLength - 1] == ' '
  {
    StripTrimmed(clean);
  }

  /** `f"Video_{safe_title}.mp4"`. */
  function FinalFilename(safe: string): (name: string)
    ensures |name| == |safe| + 10
    ensures name[..6] == "Video_" && name[6..6 + |safe|] == safe && name[|name| - 4..] == ".mp4"
  {
    "Video_" + safe + ".mp4"
  }

  /** When `isalnum` rejects the path separators, the safe title holds
      neither of them. */
  lemma SafeTitleHasNoSeparator(clean: string, isAlnum: char -> bool)
    requires !isAlnum('/') && !isAlnum('\\')
    ensures '/' !in SafeTitle(clean, isAlnum) && '\\' !in SafeTitle(clean, isAlnum)
  {
    assert !Keep('/', isAlnum) && !Keep('\\', isAlnum);
  }

  /** A safe title without path separators gives a plain file name in the
      working directory, at most 30 characters long. */
  lemma FilenameStaysInDirectory(safe: string)
    requires '/' !in safe && '\\' !in safe && |safe| <= MaxSafeLength
    ensures var name := FinalFilename(safe);
            '/' !in name && '\\' !in name && |name| <= MaxSafeLength + 10
  {
    NotInConcat('/', "Video_", safe, ".mp4");
    NotInConcat('\\', "Video_", safe, ".mp4");
  }

  lemma NotInConcat(c: char, a: string, b: string, d: string)
    requires c !in a && c !in b && c !in d
    ensures c !in a + b + d
  {
  }
}
